=== FILE: README.md ===
# testit / yarb command-line runners, modelled in Dafny

This project models the early, single-file versions of the testit/yarb tool:

- **ya.rb**: the `TestIt` class and the script's top level. `path` finds the task file among the arguments. `args` reads `--args a,b,c` from ERB templates. `config` picks `~/.yarb.<env>.yml` by `--on env`, else `~/.yarb.default.yml`, else `{}`. `data` layers the task document onto that configuration one level deep. The top level reads the verbose and dry-run switches, processes the task whenever an argument matches `/\.yml$/`, and then prints `--help`, `--man` or `--example` output.
- **testit.rb**: the same switches and one-level layering, run as a strict mode dispatch: `--help` beats `--man`, which beats `--example`, which beats processing. The task file is the last argument, whatever its extension. The defaults file is `~/.testit.yml`.
- **yarb.rb**: the `Yarb` class. It stores the first argument as `command.name` in an auto-vivifying hash. `execute` answers "example" with the installation instruction and any other command with the help text.

The model uses the following representations:

- YAML documents are a `Value` datatype: null, bool, int, string, list, and map with string keys.
- Raised Ruby exceptions are the `Err` side of a `Result`.
- The filesystem is a map from path to the document `YAML.load_file` would return. `File.file?(p)` is membership in that map.
- For ya.rb's task file, the map holds the document produced after its ERB template has been evaluated (ya.rb:181-183). testit.rb loads its task with plain `YAML.load_file` (testit.rb:176, 185), so for `TestitScript.Load` the entry is the raw YAML document.
- The static usage, manual and example texts are a `Texts` parameter.

Modules, one per source concern:

| module | file | models |
|---|---|---|
| `Wrappers` | wrappers.dfy | `Option` (nil) and `Result` (raise) |
| `Values` | values.dfy | documents and exceptions |
| `Text` | text.dfy | Ruby's `/\.yml$/` match and `String#split(',')` |
| `Argv` | argv.dfy | `Array#index` and the private `argument_value` |
| `Layers` | layers.dfy | the one-level `merge` block of ya.rb and testit.rb |
| `TestIt` | testit_class.dfy | ya.rb's `TestIt#path`, `#args`, `#config`, `#data` |
| `Cli` | cli.dfy | switches, mode priority, `--example` listing (shared by both scripts) |
| `YaScript` | ya_script.dfy | ya.rb's top level |
| `TestitScript` | testit_script.dfy | testit.rb's top level |
| `Yarb` | yarb.dfy | yarb.rb's `Yarb` class |
| `Scenarios` | scenarios.dfy | the invocations of testit_test.rb |

**Merge depth.** yarb_test.rb:107-110 tests a `recursive_merge` that these scripts do not define. The block at ya.rb:187 and testit.rb:180, 187 merges one level deep and replaces deeper hashes (`Layers.MergeStopsAtSecondLevel`).

Where the repository's tests and the code disagree, the model follows the code:

- **File prefix.** testit_test.rb writes `.testit.<env>.yml` files, but `TestIt#config` reads `.yarb.<env>.yml`. The model uses `.yarb.`.

## Model

| member | source | states |
|---|---|---|
| Text.MatchesYml | ya.rb:139 | a match needs at least four characters, and every argument ending in ".yml" matches; `Text.MatchesYmlIffMatchAt` gives the exact condition |
| Text.MatchesYmlHasIndex | ya.rb:139 | whenever the search reports a match, ".yml" sits at some index followed by a line end |
| Text.IndexMatchesYml | ya.rb:139 | wherever ".yml" is followed by a line end, the search finds it |
| Text.MatchesYmlIffMatchAt | ya.rb:139 | the left-to-right search succeeds exactly when ".yml" occurs immediately before the end of the argument or before a newline (Ruby's `$` anchor) |
| Text.MatchesYmlOnOneLine | ya.rb:233 | every argument ending in ".yml" triggers task processing; for an argument without a newline, the trigger is exactly "ends with .yml" |
| Text.MatchesYmlBeforeNewline | ya.rb:139 | a multi-line argument such as "a.yml\nb" matches although it does not end in ".yml" |
| Text.Split | ya.rb:160 | `split(',')` yields comma-free fields whose last one, if any, is non-empty; `Text.SplitLosesOnlyTrailingCommas` and `Text.SplitJoin` relate it to `join(',')` |
| Text.SplitLosesOnlyTrailingCommas | ya.rb:160 | joining the split fields back with commas gives the original string minus a run of trailing commas |
| Text.DropTrailingEmptyJoin | ya.rb:160 | removing trailing empty fields removes only trailing commas from the joined string |
| Text.Fields | ya.rb:160 | splitting on commas yields at least one field, and no field contains a comma |
| Text.DropTrailingEmpty | ya.rb:160 | `split` keeps a prefix of the fields, the kept list does not end in an empty field, and every dropped field is empty |
| Text.JoinFields | ya.rb:160 | joining the comma-separated fields with "," gives back the original string |
| Text.FieldsJoin | ya.rb:160 | splitting a join of comma-free fields returns the same fields, empty ones included |
| Text.SplitJoin | ya.rb:160 | `fields.join(',').split(',') == fields` when no field has a comma and the last field is not empty |
| Argv.ValueAfter | ya.rb:196-198 | a value is the token right after an occurrence of the flag with no earlier occurrence; nil only when the flag first and only occurs as the final token |
| Argv.FirstIndex | ya.rb:197 | `index` returns a position holding the flag, and no earlier position holds it |
| Argv.ValueAfterFirstOccurrence | ya.rb:196-198 | `argument_value` returns the token right after the first occurrence of the flag, or nil when nothing follows it |
| Argv.ValueAfterIsNil | ya.rb:196-198 | `argument_value` is nil exactly when the flag's only occurrence is the final token |
| Layers.Merge | ya.rb:187 | the merge raises exactly when the configuration is not a hash (NoMethodError), the task is not a hash (TypeError), or a task hash meets a non-hash configuration entry (NoMethodError); on success the keys are the union of both documents' keys |
| Layers.MergeTopLevel | ya.rb:187 | a key only the configuration holds keeps its value; a non-hash task value replaces the configuration's value; a key exists in the result iff it exists in either document |
| Layers.MergeSecondLevel | ya.rb:187 | under a key whose task value is a hash, the task's entries win and the configuration's other entries show through |
| Layers.MergeStopsAtSecondLevel | ya.rb:187 | below the second level nothing merges: everything under a task-supplied `k.j` comes from the task alone |
| Layers.DeeperHashesAreReplaced | testit.rb:187 | `{p: {q: {x: 1}}}` under `{p: {q: {y: 2}}}` yields `{p: {q: {y: 2}}}`, so `x` is lost |
| Layers.MergeSelf | ya.rb:187 | layering a hash onto itself returns it unchanged |
| Layers.MergeTaskTwice | ya.rb:187 | layering the same task a second time changes nothing |
| Layers.MergeEmpty | ya.rb:187 | with `{}` as the configuration (what `config` returns when no default file exists) the result is the task; with `{}` as the task the result is the configuration |
| TestIt.Path | ya.rb:138-140 | the result is nil iff no argument matches `/\.yml$/`; otherwise it is an argument that matches and that no later argument follows as a match |
| TestIt.Args | ya.rb:159-164 | returns the default when `--args` is absent; raises NoMethodError exactly when the only `--args` is the final token; any other non-default result is a comma-free string |
| TestIt.At | ya.rb:160 | `fields[index]`: nil exactly when the index is at or past the end or more negative than the length; a non-negative index reads from the start and a negative one from the end |
| TestIt.ArgsReadsListedField | ya.rb:159-164 | with `--args` followed by a list of fields, index i gives the i-th field (negative i counts from the end), and any index past the list gives the default |
| TestIt.OnEnv | ya.rb:170 | the environment is "" when `--on` first and only occurs as the final token; a non-empty environment is the token right after the first `--on` |
| TestIt.ConfigOnLast | ya.rb:169-172 | with `--on` as the final token, `config` loads `<home>/.yarb..yml`, or raises "The file <home>/.yarb..yml don't exist" |
| TestIt.Config | ya.rb:167-178 | never raises without `--on`; without `--on` it loads `<home>/.yarb.default.yml` when that file exists and returns `{}` when it does not; raising implies `--on` was given, with the message "The file <path> don't exist" naming the environment's path |
| TestIt.ConfigOnEnvironment | ya.rb:169-172 | `--on env` loads `<home>/.yarb.<env>.yml` and raises, naming that path, when the file is missing |
| TestIt.ConfigPathInjective | ya.rb:168-170 | different environment names give different config paths |
| TestIt.ConfigOnIgnoresDefaultFile | ya.rb:169-174 | when `--on` names any environment other than "default", the default file's presence or contents do not affect `config` |
| TestIt.Data | ya.rb:186-188 | a configuration error is raised before the task is read; a missing task path raises TypeError and a missing task file raises ENOENT; when the configuration loads and the task file exists, the result is exactly the configuration layered with the task file's document (including the merge's own errors), and only then can it succeed |
| Cli.Intersection | ya.rb:230-231 | `ARGV & names` holds exactly the names present in the arguments, each once |
| Cli.ReadSwitches | ya.rb:230-231 | verbose holds iff `--verbose` or `-v` is an argument; dry-run holds iff `--dry-run` or `-d` is |
| Cli.SelectMode | ya.rb:286-292 | `--help` beats `--man`, which beats `--example`, whatever their positions; the fall-through runs exactly when none of the three is present |
| Cli.Listing | ya.rb:294 | one line per catalogue entry, in catalogue order, each `<program> example <key>` |
| Cli.FindExample | ya.rb:295 | an example is found iff some catalogue entry has the key, and the found text belongs to an entry with that key |
| Cli.ExampleOutput | ya.rb:292-300 | with no argument at position 1 every key is listed; an unknown key prints "This is not a valid example, try one of:" and then the list; a known key prints exactly that example's text |
| YaScript.ProcessTask | ya.rb:234-243 | processing fails exactly when `data` raises, with the same error. It reports the merged data. A dry run is reported iff the dry-run switch is set, and it shows the task file's document and the configuration |
| Cli.PrintedLines | ya.rb:286-301 | with `--help` present the description, an empty line and the usage are printed; else with `--man` the manual; else with `--example` the example output; else nothing |
| Cli.ModeOutput | ya.rb:286-301 | `--help` prints the description, an empty line and the usage; `--man` prints the rendered manual; `--example` prints the example output; otherwise nothing is printed |
| YaScript.Run | ya.rb:230-301 | for the script's catalogue (`simple`, `config`, `complex`): with no `.yml` argument nothing is processed and only the mode's lines are printed; a task is processed iff some argument matches; the run fails exactly when some argument matches and `data` raises, with `data`'s error, before any mode output; otherwise the printed lines depend on the mode alone |
| YaScript.ExampleListsKeys | ya.rb:292-294 | `--example` alone lists "yarb.rb example simple", "... config" and "... complex" in that order |
| TestitScript.Path | testit.rb:145 | the path is the final argument whatever its extension, and nil exactly for an empty argument list |
| TestitScript.Load | testit.rb:176-177 | a nil path raises TypeError, a missing file raises ENOENT naming it, and success yields that file's document |
| TestitScript.DryRunBranch | testit.rb:173-181 | a successful dry-run branch reports a dry run |
| TestitScript.RequestBranch | testit.rb:182-187 | a successful request branch reports a request |
| TestitScript.Process | testit.rb:173-187 | a nil path raises TypeError. A missing task file raises ENOENT for that file before the defaults are read. Missing defaults raise ENOENT for `<home>/.testit.yml`. When both files exist, processing succeeds exactly when the merge does and otherwise raises the merge's error. On success, the data is the defaults layered with the task, and a dry run is reported exactly when requested, showing the loaded task and defaults |
| TestitScript.Run | testit.rb:143-187 | exactly one mode runs: any of `--help`, `--man` or `--example` prints that mode's lines and processes nothing; otherwise the last argument, whatever its extension, is loaded as the task and layered onto `<home>/.testit.yml`: an empty argument list raises TypeError, a missing task or defaults file raises ENOENT naming it, and with both present the run processes exactly when the merge succeeds and otherwise raises the merge's error |
| TestitScript.DryRunMergesLikeRequest | testit.rb:176-187 | the duplicated loads and merge of the dry-run and the request branch fail the same way or both succeed with the same merged document |
| Yarb.Fetch | yarb.rb:5 | reading a key leaves every existing entry unchanged and adds only that key; a missing key reads as, and is stored as, an empty hash |
| Yarb.FetchTwice | yarb.rb:5 | a second read of the same key returns the same value and leaves the hash unchanged |
| Yarb.New | yarb.rb:4-7 | a fresh instance's data is exactly `{command: {name: <first argument or nil>}}` |
| Yarb.CommandName | yarb.rb:10 | `@data['command']['name']` is nil when no 'command' hash or no 'name' in it is stored, and the stored name otherwise |
| Yarb.Execute | yarb.rb:9-19 | returns "Installation instruction" iff the stored command name is "example", and the help text otherwise |
| Yarb.ExecuteFirstArgument | yarb.rb:6-10 | a fresh instance answers the installation instruction iff the first argument is "example"; an empty list, `--help` or anything else gets the help text |
| Yarb.ExecuteIgnoresLaterArguments | yarb.rb:6-10 | two argument lists with the same first argument get the same answer |
| Yarb.HelpTextListsFlag | yarb.rb:12-13 | the help text mentions the `--help` flag |
| Yarb.HelpTextListsCommand | yarb.rb:15-16 | the help text mentions the `example` command and differs from the installation instruction |
| Scenarios.PathSkipsFlags | testit_test.rb:15-16 | `path` of `--dry-run variable.yml --console` is "variable.yml" |
| Scenarios.ArgsOfCreateUpdate | testit_test.rb:19-33 | `--args create,update` reads "create" at index 0 and "update" at index 1, and gives the default at index 2 or when `--args` is absent |
| Scenarios.DataLayersTaskOnEnvironment | testit_test.rb:61-66 | with `--on prod`, the task's `key` overrides the prod file's, and the prod file's `url` survives |
| Scenarios.TaskKeyOverridesProdFile | testit_test.rb:62-63 | merging the two documents of that test gives `{key: overriden, url: not-overriden.com}` |
| Scenarios.ConfigRaisesForMissingEnvironment | testit_test.rb:49-54 | `--on nonexisting` without that file raises, and the message contains "nonexisting.yml don't exist" |

## Left out

- HTTP request building and sending, basic auth, headers, and the JSON/YAML dumps of the response (ya.rb:245-283, testit.rb:189-219). These are network I/O. A non-dry run is modelled only as the merged document the request would be built from (`Request(data)`).
- ERB evaluation and YAML parsing are foreign libraries. For ya.rb, each task file's entry in the file map is its already-evaluated document; testit.rb runs no template pass, and its entry is the raw document. `TestIt.Args` models the reader that templates call, but the binding between a template and its document is not modelled.
- The rendering of the manual (`ERB.new(manual)`) is left out. The manual is taken already rendered, as part of `Texts`.
- `puts`/`p` formatting, the verbose-only progress lines, the "dryrun" banner, the `--console` pry session (including the install hint printed and the `require 'pry'` run before anything else whenever `--console` is an argument, ya.rb:10-11 and testit.rb:8-9, whose LoadError for a missing gem would stop the run), and `SecureRandom.uuid` are output, interaction and randomness. The dry run at ya.rb:241 prints the global `yaml_data` (ya.rb:226-228), which evaluates the task's template a second time; with `uuid` in a template, the printed task can differ from the merged one, whereas `YaScript.ProcessTask` reports the one document both come from. The verbose switch is modelled only as `Cli.ReadSwitches`.
- The global helpers at ya.rb:202-228 (`default`, `args`, `uuid`, `console`, `yaml_data`) re-read `ARGV`/`ENV` and delegate to `TestIt`. The global `args(index, default)` passes the default positionally to a keyword parameter; it is not modelled.
- The real filesystem is not modelled. `File.file?` is membership in the file map, and directories and unreadable files are not distinguished.
- YAML symbol keys are not modelled. Document keys are strings only, so the `:key` symbols written by testit_test.rb are read as plain names.
- Hash key order is not modelled: documents are unordered maps.
- yarb.rb's `if caller.length == 0` entry point and its `puts` are not modelled.
- The layered `configure` / `option` / `flag?` / `recursive_merge` engine is not modelled. The same applies to `Logger`, hooks, the command registry and `lib/` extension loading. `yarb_test.rb` exercises them, but their implementation is not in ya.rb, testit.rb or yarb.rb.
- TestIt.Args: states the field read by `--args` through the companion lemma `ArgsReadsListedField` for lists written as a join of comma-free fields. A value with trailing commas is covered only by `Text.DropTrailingEmpty` and `Text.SplitLosesOnlyTrailingCommas`.
- YaScript.ProcessTask: a non-dry run is assumed never to raise after `data`. In ya.rb:245-276, `URI.parse(data['url'])` raises when there is no `url`, and `Net::HTTP.start` and `JSON.load` can raise. These are network and parsing steps outside the model.
- YaScript.Run: for the same reason, a run whose non-dry processing would raise in the request (ya.rb:245-276) is modelled as succeeding and printing the mode's lines, although the script would stop before them.
- TestitScript.Process: testit.rb's request branch is assumed never to raise after the merge (testit.rb:189 onwards, `URI.parse` and the HTTP call).
- TestitScript.Run: inherits that assumption for the processing branch.

=== FILE: argv.dfy ===
/** Lookups in the raw argument list (`ARGV`, or the `arguments` an instance was built with). */
module Argv {
  import opened Wrappers

  /** `arguments.index(x)`: the position of the first occurrence of `x`. */
  function FirstIndex(arguments: seq<string>, x: string): (r: nat)
    requires x in arguments
    ensures r < |arguments| && arguments[r] == x
    ensures x !in arguments[..r]
  {
    if arguments[0] == x then 0
    else
      var r := 1 + FirstIndex(arguments[1..], x);
      assert arguments[..r] == [arguments[0]] + arguments[1..][..r - 1];
      r
  }

  /**
   * `argument_value(flag)`: the token right after the first occurrence of
   * `flag`, or nil when that occurrence is the last token. The private
   * helper is only ever called after `include?(flag)` holds; on an absent
   * flag Ruby would raise from `nil + 1`.
   */
  function ValueAfter(arguments: seq<string>, flag: string): (r: Option<string>)
    requires flag in arguments
    ensures r.Some? ==>
              exists i :: 0 <= i < |arguments| - 1 && arguments[i] == flag && flag !in arguments[..i] && r.value == arguments[i + 1]
    ensures r.None? ==> arguments[|arguments| - 1] == flag && flag !in arguments[..|arguments| - 1]
  {
    var position := FirstIndex(arguments, flag) + 1;
    if position < |arguments| then Some(arguments[position]) else None
  }

  /** The first occurrence of `flag` is at `|pre|` whenever `pre` does not contain it. */
  lemma {:induction false} FirstIndexAfterPrefix(pre: seq<string>, flag: string, post: seq<string>)
    requires flag !in pre
    ensures FirstIndex(pre + [flag] + post, flag) == |pre|
    decreases |pre|
  {
    var arguments := pre + [flag] + post;
    if |pre| > 0 {
      assert arguments[1..] == pre[1..] + [flag] + post;
      FirstIndexAfterPrefix(pre[1..], flag, post);
    }
  }

  /**
   * Reading `--flag value`: with `pre` free of the flag, the value is the
   * head of what follows the flag, and nil when nothing follows.
   */
  lemma ValueAfterFirstOccurrence(pre: seq<string>, flag: string, post: seq<string>)
    requires flag !in pre
    ensures ValueAfter(pre + [flag] + post, flag) == if |post| == 0 then None else Some(post[0])
  {
    FirstIndexAfterPrefix(pre, flag, post);
  }

  /** `--flag value` with `pre` free of the flag reads `value`. */
  lemma ValueAfterFlagValue(pre: seq<string>, flag: string, value: string, post: seq<string>)
    requires flag !in pre
    ensures flag in pre + [flag, value] + post
    ensures ValueAfter(pre + [flag, value] + post, flag) == Some(value)
  {
    var rest := [value] + post;
    assert pre + [flag, value] + post == pre + [flag] + rest;
    ValueAfterFirstOccurrence(pre, flag, rest);
  }

  /** The value is nil exactly when the only occurrence of the flag is the final token. */
  lemma ValueAfterIsNil(arguments: seq<string>, flag: string)
    requires flag in arguments
    ensures ValueAfter(arguments, flag).None? <==>
              arguments[|arguments| - 1] == flag && flag !in arguments[..|arguments| - 1]
  {
    var i := FirstIndex(arguments, flag);
    if i + 1 == |arguments| {
      assert arguments[..|arguments| - 1] == arguments[..i];
    } else {
      assert arguments[..|arguments| - 1][i] == flag;
    }
  }
}

=== FILE: cli.dfy ===
/**
 * The command-line handling shared, line for line, by ya.rb and testit.rb:
 * the verbose and dry-run switches, the `--help` > `--man` > `--example`
 * priority, and the `--example [key]` listing.
 */
module Cli {
  import opened Wrappers
  import opened Values

  // ---------------------------------------------------------------------
  // Switches: `!(ARGV & ['--verbose', '-v']).empty?`
  // ---------------------------------------------------------------------

  /** `a & b`: the elements of `a` that are also in `b`, without duplicates, in order of first appearance. */
  function Intersection(a: seq<string>, b: seq<string>): (r: seq<string>)
    ensures forall x :: x in r <==> x in a && x in b
    ensures forall i, j :: 0 <= i < j < |r| ==> r[i] != r[j]
  {
    if |a| == 0 then []
    else
      var n := |a| - 1;
      var init := Intersection(a[..n], b);
      assert a == a[..n] + [a[n]];
      if a[n] in b && a[n] !in init then init + [a[n]] else init
  }

  /** The two switches every run reads. */
  datatype Switches = Switches(verbose: bool, dryRun: bool)

  const VerboseNames: seq<string> := ["--verbose", "-v"]
  const DryRunNames: seq<string> := ["--dry-run", "-d"]

  /** Verbose is on exactly when `--verbose` or `-v` is given; dry-run exactly when `--dry-run` or `-d` is. */
  function ReadSwitches(argv: seq<string>): (s: Switches)
    ensures s.verbose <==> "--verbose" in argv || "-v" in argv
    ensures s.dryRun <==> "--dry-run" in argv || "-d" in argv
  {
    var verbose := Intersection(argv, VerboseNames);
    var dryRun := Intersection(argv, DryRunNames);
    assert "--verbose" in argv ==> "--verbose" in verbose;
    assert "-v" in argv ==> "-v" in verbose;
    assert "--dry-run" in argv ==> "--dry-run" in dryRun;
    assert "-d" in argv ==> "-d" in dryRun;
    assert |verbose| != 0 ==> verbose[0] in argv && (verbose[0] == "--verbose" || verbose[0] == "-v");
    assert |dryRun| != 0 ==> dryRun[0] in argv && (dryRun[0] == "--dry-run" || dryRun[0] == "-d");
    Switches(|verbose| != 0, |dryRun| != 0)
  }

  // ---------------------------------------------------------------------
  // Modes
  // ---------------------------------------------------------------------

  /** Which of the `if ... elsif ...` branches runs. `Neither` is the fall-through. */
  datatype Mode = Help | Manual | Example | Neither

  /** `--help` beats `--man`, which beats `--example`; wherever each stands among the arguments. */
  function SelectMode(argv: seq<string>): (m: Mode)
    ensures m.Help? <==> "--help" in argv
    ensures m.Manual? <==> "--man" in argv && "--help" !in argv
    ensures m.Example? <==> "--example" in argv && "--man" !in argv && "--help" !in argv
    ensures m.Neither? <==> "--example" !in argv && "--man" !in argv && "--help" !in argv
  {
    if "--help" in argv then Help
    else if "--man" in argv then Manual
    else if "--example" in argv then Example
    else Neither
  }

  // ---------------------------------------------------------------------
  // Static texts and `--example [key]`
  // ---------------------------------------------------------------------

  /**
   * The script's static texts: its one-line description, the usage
   * block, the manual (already rendered) and the example files keyed by
   * name, in definition order.
   */
  datatype Texts = Texts(description: string, usage: string, manual: string, examples: seq<(string, string)>)

  /** The catalogue's keys are exactly `keys`, in order. */
  predicate HasKeys(examples: seq<(string, string)>, keys: seq<string>) {
    |examples| == |keys| && forall i :: 0 <= i < |keys| ==> examples[i].0 == keys[i]
  }

  /** The keys of both scripts' example files, in definition order. */
  const ExampleKeys: seq<string> := ["simple", "config", "complex"]

  /** The header printed before the list when the key is unknown. */
  const InvalidExample: string := "This is not a valid example, try one of:"

  /** `example.each { |key, _| puts "<program> example #{key}" }` */
  function Listing(program: string, examples: seq<(string, string)>): (lines: seq<string>)
    ensures |lines| == |examples|
    ensures forall i :: 0 <= i < |lines| ==> lines[i] == program + " example " + examples[i].0
  {
    seq(|examples|, i requires 0 <= i < |examples| => program + " example " + examples[i].0)
  }

  /** `example[key.to_sym]`: the text of the first entry with that key, nil when none. */
  function FindExample(examples: seq<(string, string)>, key: string): (r: Option<string>)
    ensures r.None? <==> forall i :: 0 <= i < |examples| ==> examples[i].0 != key
    ensures r.Some? ==> exists i :: 0 <= i < |examples| && examples[i] == (key, r.value)
  {
    if |examples| == 0 then None
    else if examples[0].0 == key then Some(examples[0].1)
    else
      var r := FindExample(examples[1..], key);
      assert forall i :: 0 <= i < |examples| - 1 ==> examples[1..][i] == examples[i + 1];
      assert r.Some? ==> exists i :: 0 <= i < |examples| - 1 && examples[1..][i] == (key, r.value);
      r
  }

  /**
   * `--example`: the key is the argument at position 1. Without one, every
   * key is listed; with an unknown one, the header and then the list; with
   * a known one, that example's text.
   */
  function ExampleOutput(argv: seq<string>, program: string, examples: seq<(string, string)>): (lines: seq<string>)
    ensures |argv| < 2 ==> lines == Listing(program, examples)
    ensures |argv| >= 2 && (forall i :: 0 <= i < |examples| ==> examples[i].0 != argv[1]) ==>
              lines == [InvalidExample] + Listing(program, examples)
    ensures |argv| >= 2 && (exists i :: 0 <= i < |examples| && examples[i].0 == argv[1]) ==>
              |lines| == 1 && exists i :: 0 <= i < |examples| && examples[i] == (argv[1], lines[0])
  {
    if |argv| < 2 then Listing(program, examples)
    else
      match FindExample(examples, argv[1])
      case None => [InvalidExample] + Listing(program, examples)
      case Some(text) => [text]
  }

  /** What the selected branch prints, one entry per `puts`. */
  function ModeOutput(mode: Mode, argv: seq<string>, program: string, texts: Texts): (lines: seq<string>)
    ensures mode == Help ==> lines == [texts.description, "", texts.usage]
    ensures mode == Manual ==> lines == [texts.manual]
    ensures mode == Example ==> lines == ExampleOutput(argv, program, texts.examples)
    ensures mode == Neither ==> lines == []
  {
    match mode
    case Help => [texts.description, "", texts.usage]
    case Manual => [texts.manual]
    case Example => ExampleOutput(argv, program, texts.examples)
    case Neither => []
  }

  /** What a run prints, read off the flags present in the arguments. */
  lemma PrintedLines(argv: seq<string>, program: string, texts: Texts)
    ensures "--help" in argv ==>
              ModeOutput(SelectMode(argv), argv, program, texts) == [texts.description, "", texts.usage]
    ensures "--help" !in argv && "--man" in argv ==>
              ModeOutput(SelectMode(argv), argv, program, texts) == [texts.manual]
    ensures "--help" !in argv && "--man" !in argv && "--example" in argv ==>
              ModeOutput(SelectMode(argv), argv, program, texts) == ExampleOutput(argv, program, texts.examples)
    ensures "--help" !in argv && "--man" !in argv && "--example" !in argv ==>
              ModeOutput(SelectMode(argv), argv, program, texts) == []
  {
  }

  // ---------------------------------------------------------------------
  // What processing a task file produces
  // ---------------------------------------------------------------------

  /**
   * The outcome of processing a task file: on a dry run the task document,
   * the defaults and the merged document are printed; otherwise the merged
   * document drives an HTTP request.
   */
  datatype Report =
    | DryRun(task: Value, defaults: Value, data: Value)
    | Request(data: Value)
}

=== FILE: layers.dfy ===
/**
 * The one-level layering of a task document onto a configuration document:
 *
 *   config.merge(task) { |_key, default, value| value.is_a?(Hash) ? default.merge(value) : value }
 *
 * (written identically in ya.rb `TestIt#data` and twice in testit.rb).
 */
module Layers {
  import opened Wrappers
  import opened Values

  /** At key `k` the task holds a hash but the configuration holds something else, so `default.merge(value)` raises. */
  predicate Clash(base: map<string, Value>, over: map<string, Value>, k: string) {
    k in base && k in over && over[k].Map? && !base[k].Map?
  }

  predicate Clashes(base: map<string, Value>, over: map<string, Value>) {
    exists k | k in over :: Clash(base, over, k)
  }

  /** The merge block, for a key both documents hold. */
  function Resolve(default: Value, value: Value): Value
    requires value.Map? ==> default.Map?
  {
    if value.Map? then Map(default.entries + value.entries) else value
  }

  function MergeEntries(base: map<string, Value>, over: map<string, Value>): map<string, Value>
    requires !Clashes(base, over)
  {
    map k | k in base.Keys + over.Keys ::
      if k in base && k in over then
        assert !Clash(base, over, k);
        Resolve(base[k], over[k])
      else if k in over then over[k]
      else base[k]
  }

  /**
   * `base.merge(over) { ... }`: raises NoMethodError when the receiver is not
   * a hash or when a task hash meets a non-hash configuration entry, and
   * TypeError when the argument is not a hash.
   */
  function Merge(base: Value, over: Value): (r: Result<Value, Error>)
    ensures r.Ok? <==> base.Map? && over.Map? && !Clashes(base.entries, over.entries)
    ensures r.Err? ==> r.error == (if base.Map? && !over.Map? then TypeError else NoMethodError("merge"))
    ensures r.Ok? ==> r.value.Map? && r.value.entries.Keys == base.entries.Keys + over.entries.Keys
  {
    if !base.Map? then Err(NoMethodError("merge"))
    else if !over.Map? then Err(TypeError)
    else if Clashes(base.entries, over.entries) then Err(NoMethodError("merge"))
    else Ok(Map(MergeEntries(base.entries, over.entries)))
  }

  /** `doc.dig(*path)`: the node reached by following `path` through nested hashes, or nil. */
  ghost function Lookup(v: Value, path: seq<string>): Option<Value>
    decreases |path|
  {
    if |path| == 0 then Some(v)
    else if v.Map? && path[0] in v.entries then Lookup(v.entries[path[0]], path[1..])
    else None
  }

  /**
   * Top level: a key only the configuration holds keeps its value, and a
   * non-hash task value replaces the configuration's outright.
   */
  lemma MergeTopLevel(base: Value, over: Value, k: string)
    requires Merge(base, over).Ok?
    ensures var r := Merge(base, over).value;
      && (Lookup(r, [k]).Some? <==> Lookup(base, [k]).Some? || Lookup(over, [k]).Some?)
      && (Lookup(over, [k]).None? ==> Lookup(r, [k]) == Lookup(base, [k]))
      && (Lookup(over, [k]).Some? && !over.entries[k].Map? ==> Lookup(r, [k]) == Lookup(over, [k]))
  {
    var r := Merge(base, over).value;
    assert [k][1..] == [];
    if k in r.entries {
      assert Lookup(r, [k]) == Some(r.entries[k]);
    }
    if k in base.entries {
      assert Lookup(base, [k]) == Some(base.entries[k]);
    }
    if k in over.entries {
      assert Lookup(over, [k]) == Some(over.entries[k]);
    }
  }

  /**
   * Second level: under a key where the task holds a hash, the task's
   * entries win and the configuration's other entries show through.
   */
  lemma MergeSecondLevel(base: Value, over: Value, k: string, j: string)
    requires Merge(base, over).Ok?
    requires Lookup(over, [k]).Some? && over.entries[k].Map?
    ensures var r := Merge(base, over).value;
      Lookup(r, [k, j]) == if Lookup(over, [k, j]).Some? then Lookup(over, [k, j]) else Lookup(base, [k, j])
  {
    var r := Merge(base, over).value;
    assert [k, j][1..] == [j];
    assert [j][1..] == [];
    assert !Clash(base.entries, over.entries, k);
    if k in base.entries {
      assert r.entries[k] == Map(base.entries[k].entries + over.entries[k].entries);
      assert Lookup(base, [k, j]) == Lookup(base.entries[k], [j]);
    } else {
      assert r.entries[k] == over.entries[k];
    }
    assert Lookup(r, [k, j]) == Lookup(r.entries[k], [j]);
    assert Lookup(over, [k, j]) == Lookup(over.entries[k], [j]);
  }

  /**
   * Below the second level nothing is merged: once the task supplies
   * `k.j`, everything under it comes from the task alone.
   */
  lemma MergeStopsAtSecondLevel(base: Value, over: Value, k: string, j: string, rest: seq<string>)
    requires Merge(base, over).Ok?
    requires Lookup(over, [k, j]).Some?
    ensures Lookup(Merge(base, over).value, [k, j] + rest) == Lookup(over, [k, j] + rest)
  {
    assert ([k, j] + rest)[1..] == [j] + rest;
    assert ([j] + rest)[1..] == rest;
    assert [k, j][1..] == [j];
    assert !Clash(base.entries, over.entries, k);
  }

  /** A concrete case: `{p: {q: {x: 1}}}` under `{p: {q: {y: 2}}}` loses `p.q.x`. */
  lemma DeeperHashesAreReplaced()
    ensures var inner := Map(map["q" := Map(map["x" := Int(1)])]);
      var task := Map(map["q" := Map(map["y" := Int(2)])]);
      Merge(Map(map["p" := inner]), Map(map["p" := task])) == Ok(Map(map["p" := task]))
  {
    var inner := Map(map["q" := Map(map["x" := Int(1)])]);
    var task := Map(map["q" := Map(map["y" := Int(2)])]);
    assert !Clash(map["p" := inner], map["p" := task], "p");
    assert !Clashes(map["p" := inner], map["p" := task]);
    assert inner.entries + task.entries == task.entries;
    assert MergeEntries(map["p" := inner], map["p" := task]) == map["p" := task];
  }

  /** Layering a document onto itself changes nothing. */
  lemma MergeSelf(doc: Value)
    requires doc.Map?
    ensures Merge(doc, doc) == Ok(doc)
  {
    assert !Clashes(doc.entries, doc.entries);
    var m := MergeEntries(doc.entries, doc.entries);
    forall k | k in m
      ensures m[k] == doc.entries[k]
    {
      var v := doc.entries[k];
      if v.Map? {
        assert v.entries + v.entries == v.entries;
      }
    }
    assert m == doc.entries;
  }

  /** Layering the same task twice has the effect of layering it once. */
  lemma MergeTaskTwice(base: Value, over: Value)
    requires Merge(base, over).Ok?
    ensures Merge(Merge(base, over).value, over) == Merge(base, over)
  {
    var r := Merge(base, over).value;
    forall k | k in over.entries
      ensures !Clash(r.entries, over.entries, k)
    {
      assert !Clash(base.entries, over.entries, k);
    }
    var m := MergeEntries(r.entries, over.entries);
    forall k | k in m
      ensures m[k] == r.entries[k]
    {
      if k in over.entries && over.entries[k].Map? {
        assert !Clash(base.entries, over.entries, k);
        var d := r.entries[k].entries;
        assert d + over.entries[k].entries == d;
      }
    }
    assert m == r.entries;
  }

  /** An empty configuration yields the task; an empty task yields the configuration. */
  lemma MergeEmpty(doc: Value)
    requires doc.Map?
    ensures Merge(EmptyMap, doc) == Ok(doc)
    ensures Merge(doc, EmptyMap) == Ok(doc)
  {
    assert MergeEntries(map[], doc.entries) == doc.entries;
    assert MergeEntries(doc.entries, map[]) == doc.entries;
  }
}

=== FILE: scenarios.dfy ===
/**
 * The invocations exercised by testit_test.rb, stated against the model
 * (with the `.yarb.` file prefix the code uses).
 */
module Scenarios {
  import opened Wrappers
  import opened Values
  import opened Text
  import opened TestIt

  /** Flags around the task file are ignored by `path`. */
  lemma PathSkipsFlags()
    ensures Path(["--dry-run", "variable.yml", "--console"]) == Some("variable.yml")
  {
    var arguments := ["--dry-run", "variable.yml", "--console"];
    MatchesYmlOnOneLine("--console");
    MatchesYmlOnOneLine("variable.yml");
    assert "--console"[5..] != ".yml";
    assert "variable.yml"[8..] == ".yml";
    assert arguments[..2] == ["--dry-run", "variable.yml"];
  }

  /** `--args create,update`: index 1 is "update", index 2 falls back to the default. */
  lemma ArgsOfCreateUpdate()
    ensures Args(["--args", "create,update"], 0, Str("default")) == Ok(Str("create"))
    ensures Args(["--args", "create,update"], 1, Str("default")) == Ok(Str("update"))
    ensures Args(["--args", "create,update"], 2, Str("default")) == Ok(Str("default"))
    ensures Args(["--dry-run"], 0, Str("default")) == Ok(Str("default"))
  {
    var fields := ["create", "update"];
    assert Join(fields) == "create,update";
    assert ',' !in fields[0] && ',' !in fields[1];
    assert [] + ["--args", "create,update"] + [] == ["--args", "create,update"];
    ArgsReadsListedField([], fields, [], 0, Str("default"));
    ArgsReadsListedField([], fields, [], 1, Str("default"));
    ArgsReadsListedField([], fields, [], 2, Str("default"));
  }

  /** `--on prod` with a prod file: the task's key wins, the file's other keys remain. */
  lemma DataLayersTaskOnEnvironment()
    ensures var files := map[
          ConfigPath("tmp", "prod") := Map(map["key" := Str("overriden-by-file"), "url" := Str("not-overriden.com")]),
          "tmp/test.yml" := Map(map["key" := Str("overriden")])];
      Data(["--dry-run", "--on", "prod", "tmp/test.yml"], "tmp", files) ==
        Ok(Map(map["key" := Str("overriden"), "url" := Str("not-overriden.com")]))
  {
    var config := Map(map["key" := Str("overriden-by-file"), "url" := Str("not-overriden.com")]);
    var task := Map(map["key" := Str("overriden")]);
    var prod := ConfigPath("tmp", "prod");
    assert |prod| == 18;
    var files := map[prod := config, "tmp/test.yml" := task];
    var arguments := ["--dry-run", "--on", "prod", "tmp/test.yml"];
    ConfigOnEnvironment(["--dry-run"], "prod", ["tmp/test.yml"], "tmp", files);
    assert ["--dry-run"] + ["--on", "prod"] + ["tmp/test.yml"] == arguments;
    assert Config(arguments, "tmp", files) == Ok(config);
    MatchesYmlOnOneLine("tmp/test.yml");
    assert "tmp/test.yml"[8..] == ".yml";
    assert arguments[3] == "tmp/test.yml";
    assert Path(arguments) == Some("tmp/test.yml");
    assert files["tmp/test.yml"] == task;
    TaskKeyOverridesProdFile();
  }

  /** The merge at the heart of the scenario above. */
  lemma TaskKeyOverridesProdFile()
    ensures Layers.Merge(Map(map["key" := Str("overriden-by-file"), "url" := Str("not-overriden.com")]),
                         Map(map["key" := Str("overriden")])) ==
              Ok(Map(map["key" := Str("overriden"), "url" := Str("not-overriden.com")]))
  {
    var config := map["key" := Str("overriden-by-file"), "url" := Str("not-overriden.com")];
    var task := map["key" := Str("overriden")];
    assert !Layers.Clash(config, task, "key");
    assert !Layers.Clashes(config, task);
    var merged := Layers.MergeEntries(config, task);
    assert merged.Keys == {"key", "url"};
    assert merged == map["key" := Str("overriden"), "url" := Str("not-overriden.com")];
  }

  /** `--on nonexisting` raises with a message matching `/nonexisting.yml don't exist/`. */
  lemma ConfigRaisesForMissingEnvironment(home: string, files: Files)
    requires ConfigPath(home, "nonexisting") !in files
    ensures Config(["--on", "nonexisting"], home, files).Err?
    ensures Contains(Config(["--on", "nonexisting"], home, files).error.message, "nonexisting" + ".yml" + " don't exist")
  {
    ConfigOnEnvironment([], "nonexisting", [], home, files);
    assert [] + ["--on", "nonexisting"] + [] == ["--on", "nonexisting"];
    var prefix := "The file " + home + "/.yarb.";
    var tail := "nonexisting" + ".yml" + " don't exist";
    var message := MissingMessage(ConfigPath(home, "nonexisting"));
    assert message == prefix + tail;
    assert message[|prefix|..] == tail;
    assert OccursAt(message, tail, |prefix|);
  }
}

=== FILE: testit_class.dfy ===
/**
 * The `TestIt` class of ya.rb: an invocation's `arguments` and `home`
 * directory, with the readers the script and its ERB templates use.
 * The filesystem is a map from path to the document `YAML.load_file`
 * would return; for the task file the entry is the document obtained
 * after its ERB template has been evaluated.
 */
module TestIt {
  import opened Wrappers
  import opened Values
  import opened Text
  import opened Argv
  import Layers


  // ---------------------------------------------------------------------
  // path
  // ---------------------------------------------------------------------

  /** `arguments[i]` matches `/\.yml$/` and no later argument does. */
  ghost predicate IsLastYml(arguments: seq<string>, i: int) {
    && 0 <= i < |arguments|
    && MatchesYml(arguments[i])
    && forall j :: i < j < |arguments| ==> !MatchesYml(arguments[j])
  }

  /** `path`: the last argument matching `/\.yml$/`, nil when there is none. */
  function Path(arguments: seq<string>): (r: Option<string>)
    ensures r.None? <==> forall i :: 0 <= i < |arguments| ==> !MatchesYml(arguments[i])
    ensures r.Some? ==> exists i :: IsLastYml(arguments, i) && arguments[i] == r.value
  {
    if |arguments| == 0 then None
    else
      var n := |arguments| - 1;
      if MatchesYml(arguments[n]) then
        assert IsLastYml(arguments, n);
        Some(arguments[n])
      else
        var r := Path(arguments[..n]);
        assert forall i :: 0 <= i < n ==> arguments[..n][i] == arguments[i];
        assert r.Some? ==> exists i :: IsLastYml(arguments[..n], i) && arguments[..n][i] == r.value;
        assert forall i :: IsLastYml(arguments[..n], i) ==> IsLastYml(arguments, i);
        r
  }

  // ---------------------------------------------------------------------
  // args
  // ---------------------------------------------------------------------

  /** `fields[index]` with Ruby's `Array#[]`: a negative index counts from the end; nil out of range. */
  function At(fields: seq<string>, index: int): (r: Option<string>)
    ensures r.None? <==> index >= |fields| || index < -|fields|
    ensures 0 <= index < |fields| ==> r == Some(fields[index])
    ensures -|fields| <= index < 0 ==> r == Some(fields[|fields| + index])
  {
    var i := if index < 0 then index + |fields| else index;
    if 0 <= i < |fields| then Some(fields[i]) else None
  }

  /** `result.nil? ? default : result` for `result = fields[index]`. */
  function FieldOr(fields: seq<string>, index: int, default: Value): Value {
    match At(fields, index)
    case None => default
    case Some(field) => Str(field)
  }

  /**
   * `args(index, default:)`: the index-th comma-separated field of the token
   * after the first `--args`, or `default` when `--args` is absent or the
   * field does not exist. When the first `--args` is the final token,
   * `nil.split` raises.
   */
  function Args(arguments: seq<string>, index: int, default: Value): (r: Result<Value, Error>)
    ensures "--args" !in arguments ==> r == Ok(default)
    ensures r.Err? <==>
              "--args" in arguments && arguments[|arguments| - 1] == "--args"
              && "--args" !in arguments[..|arguments| - 1]
    ensures r.Err? ==> r.error == NoMethodError("split")
    ensures r.Ok? && r.value != default ==> r.value.Str? && ',' !in r.value.s
  {
    if "--args" in arguments then
      ValueAfterIsNil(arguments, "--args");
      match ValueAfter(arguments, "--args")
      case None => Err(NoMethodError("split"))
      case Some(list) =>
        var fields := Split(list);
        assert forall i :: 0 <= i < |fields| ==> fields[i] == Fields(list)[i];
        Ok(FieldOr(fields, index, default))
    else
      Ok(default)
  }

  /**
   * `--args a,b,c`: index `i` reads the i-th listed field (counting from the
   * end when negative), and any index past the list gives the default.
   */
  lemma {:induction false} ArgsReadsListedField(pre: seq<string>, fields: seq<string>, post: seq<string>, index: int, default: Value)
    requires "--args" !in pre
    requires forall i :: 0 <= i < |fields| ==> ',' !in fields[i]
    requires |fields| == 0 || fields[|fields| - 1] != ""
    ensures Args(pre + ["--args", Join(fields)] + post, index, default) ==
              Ok(if 0 <= index < |fields| then Str(fields[index])
                 else if -|fields| <= index < 0 then Str(fields[index + |fields|])
                 else default)
  {
    var list := Join(fields);
    ValueAfterFlagValue(pre, "--args", list, post);
    SplitJoin(fields);
    ArgsOfList(pre + ["--args", list] + post, list, index, default);
    FieldOrIndexes(fields, index, default);
  }

  /** `FieldOr` spelled out by cases of the index. */
  lemma FieldOrIndexes(fields: seq<string>, index: int, default: Value)
    ensures FieldOr(fields, index, default) ==
              if 0 <= index < |fields| then Str(fields[index])
              else if -|fields| <= index < 0 then Str(fields[index + |fields|])
              else default
  {
  }

  /** Unfolds `Args` once the value after `--args` is known. */
  lemma ArgsOfList(arguments: seq<string>, list: string, index: int, default: Value)
    requires "--args" in arguments && ValueAfter(arguments, "--args") == Some(list)
    ensures Args(arguments, index, default) == Ok(FieldOr(Split(list), index, default))
  {
  }

  // ---------------------------------------------------------------------
  // config
  // ---------------------------------------------------------------------

  /** `"#{home}/.yarb.#{env}.yml"` */
  function ConfigPath(home: string, env: string): string {
    home + "/.yarb." + env + ".yml"
  }

  /** The message raised for a missing environment file. */
  function MissingMessage(path: string): string {
    "The file " + path + " don't exist"
  }

  /** The environment named by `--on`; nil interpolates as "" when `--on` is the last token. */
  function OnEnv(arguments: seq<string>): (env: string)
    requires "--on" in arguments
    ensures arguments[|arguments| - 1] == "--on" && "--on" !in arguments[..|arguments| - 1] ==> env == ""
    ensures env != "" ==>
              exists i :: 0 <= i < |arguments| - 1 && arguments[i] == "--on" && "--on" !in arguments[..i] && env == arguments[i + 1]
    ensures forall i :: 0 <= i < |arguments| - 1 && arguments[i] == "--on" && "--on" !in arguments[..i] ==> env == arguments[i + 1]
  {
    ValueAfterIsNil(arguments, "--on");
    ValueAfter(arguments, "--on").GetOr("")
  }

  /**
   * `config`: with `--on env` the file `<home>/.yarb.<env>.yml`, raising
   * when it does not exist; otherwise `<home>/.yarb.default.yml` if it
   * exists; otherwise `{}`.
   */
  function Config(arguments: seq<string>, home: string, files: Files): (r: Result<Value, Error>)
    ensures "--on" !in arguments ==> r.Ok?
    ensures "--on" !in arguments && ConfigPath(home, "default") !in files ==> r == Ok(EmptyMap)
    ensures "--on" !in arguments && ConfigPath(home, "default") in files ==> r == Ok(files[ConfigPath(home, "default")])
    ensures r.Ok? ==> r.value == EmptyMap || r.value in files.Values
    ensures r.Err? ==> "--on" in arguments && r.error == RuntimeError(MissingMessage(ConfigPath(home, OnEnv(arguments))))
  {
    var default := ConfigPath(home, "default");
    if "--on" in arguments then
      var path := ConfigPath(home, OnEnv(arguments));
      if path !in files then Err(RuntimeError(MissingMessage(path)))
      else Ok(files[path])
    else if default in files then Ok(files[default])
    else Ok(EmptyMap)
  }

  /** `--on env` loads that environment's file, or raises naming its path. */
  lemma ConfigOnEnvironment(pre: seq<string>, env: string, post: seq<string>, home: string, files: Files)
    requires "--on" !in pre
    ensures var path := ConfigPath(home, env);
      Config(pre + ["--on", env] + post, home, files) ==
        if path in files then Ok(files[path]) else Err(RuntimeError(MissingMessage(path)))
  {
    ValueAfterFlagValue(pre, "--on", env, post);
  }

  /**
   * `--on` as the final token: `argument_value` is nil, which interpolates
   * as "", so the file read (or named in the error) is `<home>/.yarb..yml`.
   */
  lemma ConfigOnLast(pre: seq<string>, home: string, files: Files)
    requires "--on" !in pre
    ensures var path := ConfigPath(home, "");
      Config(pre + ["--on"], home, files) ==
        if path in files then Ok(files[path]) else Err(RuntimeError(MissingMessage(path)))
  {
    ValueAfterFirstOccurrence(pre, "--on", []);
    assert pre + ["--on"] + [] == pre + ["--on"];
  }

  /** Different environments name different files. */
  lemma ConfigPathInjective(home: string, env1: string, env2: string)
    requires ConfigPath(home, env1) == ConfigPath(home, env2)
    ensures env1 == env2
  {
    var p1 := ConfigPath(home, env1);
    var p2 := ConfigPath(home, env2);
    var start := |home| + 7;
    assert p1[start..start + |env1|] == env1;
    assert p2[start..start + |env2|] == env2;
  }

  /**
   * `--on` takes precedence over the default file: unless the named
   * environment is "default" itself, whatever the default file holds
   * (or whether it exists) does not affect the result.
   */
  lemma ConfigOnIgnoresDefaultFile(arguments: seq<string>, home: string, files: Files, doc: Option<Value>)
    requires "--on" in arguments && OnEnv(arguments) != "default"
    ensures var default := ConfigPath(home, "default");
      var altered := if doc.Some? then files[default := doc.value] else files - {default};
      Config(arguments, home, altered) == Config(arguments, home, files)
  {
    var default := ConfigPath(home, "default");
    var path := ConfigPath(home, OnEnv(arguments));
    if path == default {
      ConfigPathInjective(home, OnEnv(arguments), "default");
    }
  }

  // ---------------------------------------------------------------------
  // data
  // ---------------------------------------------------------------------

  /**
   * `data`: the configuration with the task document layered one level
   * deep on top. The configuration is read first, so its error wins;
   * then the task file at `path` is read (`File.read(nil)` raises when no
   * argument names one).
   */
  function Data(arguments: seq<string>, home: string, files: Files): (r: Result<Value, Error>)
    ensures Config(arguments, home, files).Err? ==> r == Err(Config(arguments, home, files).error)
    ensures Config(arguments, home, files).Ok? && Path(arguments).None? ==> r == Err(TypeError)
    ensures Config(arguments, home, files).Ok? && Path(arguments).Some? && Path(arguments).value !in files ==>
              r == Err(FileNotFound(Path(arguments).value))
    ensures Config(arguments, home, files).Ok? && Path(arguments).Some? && Path(arguments).value in files ==>
              r == Layers.Merge(Config(arguments, home, files).value, files[Path(arguments).value])
    ensures r.Ok? ==>
              && Path(arguments).Some? && Path(arguments).value in files
              && r == Layers.Merge(Config(arguments, home, files).value, files[Path(arguments).value])
  {
    var config :- Config(arguments, home, files);
    match Path(arguments)
    case None => Err(TypeError)
    case Some(path) =>
      if path !in files then Err(FileNotFound(path))
      else Layers.Merge(config, files[path])
  }
}

=== FILE: testit_script.dfy ===
/**
 * testit.rb: exactly one of `--help`, `--man`, `--example` or task
 * processing runs, in that priority. Processing loads the task file named
 * by the last argument (whatever its extension) and the defaults file
 * `<home>/.testit.yml`, and layers the task onto the defaults one level
 * deep, identically in the dry-run and the request branch.
 */
module TestitScript {
  import opened Wrappers
  import opened Values
  import opened Cli
  import Layers

  /** The name the script lists its examples under. */
  const Program: string := "testit.rb"

  /** `ARGV.last`: the final argument, whatever it looks like; nil for an empty list. */
  function Path(argv: seq<string>): (r: Option<string>)
    ensures r.None? <==> |argv| == 0
    ensures r.Some? ==> r.value in argv && r.value == argv[|argv| - 1]
  {
    if |argv| == 0 then None else Some(argv[|argv| - 1])
  }

  /** `"#{ENV['HOME']}/.testit.yml"` */
  function DefaultsPath(home: string): string {
    home + "/.testit.yml"
  }

  /** `YAML.load_file(path)`: a nil path is a TypeError, a missing file is ENOENT. */
  function Load(files: Files, path: Option<string>): (r: Result<Value, Error>)
    ensures path.None? ==> r == Err(TypeError)
    ensures path.Some? && path.value !in files ==> r == Err(FileNotFound(path.value))
    ensures r.Ok? ==> path.Some? && path.value in files && r.value == files[path.value]
  {
    match path
    case None => Err(TypeError)
    case Some(p) => if p in files then Ok(files[p]) else Err(FileNotFound(p))
  }

  /** The dry-run branch: load the task file, then the defaults, merge, and show all three. */
  function DryRunBranch(path: Option<string>, home: string, files: Files): (r: Result<Report, Error>)
    ensures r.Ok? ==> r.value.DryRun?
  {
    var task :- Load(files, path);
    var defaults :- Load(files, Some(DefaultsPath(home)));
    var data :- Layers.Merge(defaults, task);
    Ok(DryRun(task, defaults, data))
  }

  /** The request branch: the same loads and merge, keeping only the merged document. */
  function RequestBranch(path: Option<string>, home: string, files: Files): (r: Result<Report, Error>)
    ensures r.Ok? ==> r.value.Request?
  {
    var task :- Load(files, path);
    var defaults :- Load(files, Some(DefaultsPath(home)));
    var data :- Layers.Merge(defaults, task);
    Ok(Request(data))
  }

  /**
   * Processing, as whichever branch the dry-run switch selects: the task
   * file is loaded before the defaults, and the task is layered onto the
   * defaults one level deep.
   */
  function Process(dryRun: bool, path: Option<string>, home: string, files: Files): (r: Result<Report, Error>)
    ensures path.None? ==> r == Err(TypeError)
    ensures path.Some? && path.value !in files ==> r == Err(FileNotFound(path.value))
    ensures path.Some? && path.value in files && DefaultsPath(home) !in files ==>
              r == Err(FileNotFound(DefaultsPath(home)))
    ensures path.Some? && path.value in files && DefaultsPath(home) in files ==>
              var m := Layers.Merge(files[DefaultsPath(home)], files[path.value]);
              && (r.Ok? <==> m.Ok?)
              && (r.Err? ==> r.error == m.error)
    ensures r.Ok? ==>
              && path.Some? && path.value in files && DefaultsPath(home) in files
              && Layers.Merge(files[DefaultsPath(home)], files[path.value]) == Ok(r.value.data)
    ensures r.Ok? ==> (r.value.DryRun? <==> dryRun)
    ensures r.Ok? && r.value.DryRun? ==>
              r.value.task == files[path.value] && r.value.defaults == files[DefaultsPath(home)]
  {
    if dryRun then DryRunBranch(path, home, files) else RequestBranch(path, home, files)
  }

  /** What a run did: printed the selected mode's lines, or processed the task. */
  datatype Outcome = Printed(lines: seq<string>) | Processed(report: Report)

  /** One run of the script. */
  function Run(argv: seq<string>, home: string, files: Files, texts: Texts): (r: Result<Outcome, Error>)
    requires HasKeys(texts.examples, ExampleKeys)
    ensures !SelectMode(argv).Neither? ==> r == Ok(Printed(ModeOutput(SelectMode(argv), argv, Program, texts)))
    ensures r.Err? || r.value.Processed? ==> "--help" !in argv && "--man" !in argv && "--example" !in argv
    ensures SelectMode(argv).Neither? && |argv| == 0 ==> r == Err(TypeError)
    ensures SelectMode(argv).Neither? && |argv| > 0 && argv[|argv| - 1] !in files ==>
              r == Err(FileNotFound(argv[|argv| - 1]))
    ensures SelectMode(argv).Neither? && |argv| > 0 && argv[|argv| - 1] in files && DefaultsPath(home) !in files ==>
              r == Err(FileNotFound(DefaultsPath(home)))
    ensures SelectMode(argv).Neither? && |argv| > 0 && argv[|argv| - 1] in files && DefaultsPath(home) in files ==>
              var m := Layers.Merge(files[DefaultsPath(home)], files[argv[|argv| - 1]]);
              && (r.Ok? <==> m.Ok?)
              && (r.Ok? ==> r.value.Processed?)
              && (r.Err? ==> r.error == m.error)
    ensures r.Ok? && r.value.Processed? ==>
              && |argv| > 0 && argv[|argv| - 1] in files && DefaultsPath(home) in files
              && Layers.Merge(files[DefaultsPath(home)], files[argv[|argv| - 1]]) == Ok(r.value.report.data)
              && (r.value.report.DryRun? <==> "--dry-run" in argv || "-d" in argv)
  {
    var mode := SelectMode(argv);
    if !mode.Neither? then Ok(Printed(ModeOutput(mode, argv, Program, texts)))
    else
      var report :- Process(ReadSwitches(argv).dryRun, Path(argv), home, files);
      Ok(Processed(report))
  }

  /**
   * The two branches repeat the same loads and the same merge block, so
   * they fail alike and compute the same merged document.
   */
  lemma DryRunMergesLikeRequest(path: Option<string>, home: string, files: Files)
    ensures DryRunBranch(path, home, files).Ok? <==> RequestBranch(path, home, files).Ok?
    ensures DryRunBranch(path, home, files).Err? ==>
              DryRunBranch(path, home, files).error == RequestBranch(path, home, files).error
    ensures DryRunBranch(path, home, files).Ok? ==>
              DryRunBranch(path, home, files).value.data == RequestBranch(path, home, files).value.data
  {
  }
}

=== FILE: text.dfy ===
/**
 * The two pieces of Ruby string behaviour the scripts depend on: the
 * `/\.yml$/` test that recognises a task file, and `String#split(',')`
 * used to read `--args a,b,c`.
 */
module Text {

  /** `sub` occurs in `s` starting at index `i`. */
  ghost predicate OccursAt(s: string, sub: string, i: int) {
    0 <= i <= |s| - |sub| && s[i..i + |sub|] == sub
  }

  /** `sub` occurs somewhere inside `s` (Ruby's `s.include?(sub)`). */
  ghost predicate Contains(s: string, sub: string) {
    exists i :: OccursAt(s, sub, i)
  }

  // ---------------------------------------------------------------------
  // `arg.match(/\.yml$/)`
  // ---------------------------------------------------------------------

  /** Ruby's `$` anchor holds at position `j`: the end of the string or just before a newline. */
  predicate AtLineEnd(s: string, j: nat) {
    j == |s| || (j < |s| && s[j] == '\n')
  }

  /** The pattern matches with its literal ".yml" starting at index `i`. */
  ghost predicate YmlMatchAt(s: string, i: int) {
    0 <= i && i + 4 <= |s| && s[i..i + 4] == ".yml" && AtLineEnd(s, i + 4)
  }

  /** `s.match(/\.yml$/)` is truthy: a left-to-right search for ".yml" followed by a line end. */
  predicate MatchesYml(s: string): (r: bool)
    ensures r ==> |s| >= 4
    ensures |s| >= 4 && s[|s| - 4..] == ".yml" ==> r
    decreases |s|
  {
    if |s| < 4 then false
    else
      assert |s| > 4 ==> s[1..][|s| - 5..] == s[|s| - 4..];
      (s[..4] == ".yml" && AtLineEnd(s, 4)) || MatchesYml(s[1..])
  }

  /** A match found by the search sits at some index. */
  lemma {:induction false} MatchesYmlHasIndex(s: string)
    requires MatchesYml(s)
    ensures exists i :: YmlMatchAt(s, i)
    decreases |s|
  {
    if s[..4] == ".yml" && AtLineEnd(s, 4) {
      assert YmlMatchAt(s, 0);
    } else {
      MatchesYmlHasIndex(s[1..]);
      var i :| YmlMatchAt(s[1..], i);
      assert s[1..][i..i + 4] == s[i + 1..i + 5];
      assert YmlMatchAt(s, i + 1);
    }
  }

  /** The search finds every match, wherever it sits. */
  lemma {:induction false} IndexMatchesYml(s: string, i: int)
    requires YmlMatchAt(s, i)
    ensures MatchesYml(s)
    decreases i
  {
    if i > 0 {
      assert s[1..][i - 1..i + 3] == s[i..i + 4];
      assert YmlMatchAt(s[1..], i - 1);
      IndexMatchesYml(s[1..], i - 1);
    }
  }

  /** The search finds a match exactly when the pattern matches at some index. */
  lemma MatchesYmlIffMatchAt(s: string)
    ensures MatchesYml(s) <==> exists i :: YmlMatchAt(s, i)
  {
    if MatchesYml(s) {
      MatchesYmlHasIndex(s);
    }
    if exists i :: YmlMatchAt(s, i) {
      var i :| YmlMatchAt(s, i);
      IndexMatchesYml(s, i);
    }
  }

  /** `s` ends with ".yml" (Ruby's `end_with?('.yml')`). */
  predicate EndsWithYml(s: string) {
    |s| >= 4 && s[|s| - 4..] == ".yml"
  }

  /**
   * On a single-line argument the pattern is exactly a suffix test; an
   * argument ending in ".yml" always matches.
   */
  lemma MatchesYmlOnOneLine(s: string)
    ensures EndsWithYml(s) ==> MatchesYml(s)
    ensures '\n' !in s ==> (MatchesYml(s) <==> EndsWithYml(s))
  {
    MatchesYmlIffMatchAt(s);
    if EndsWithYml(s) {
      assert YmlMatchAt(s, |s| - 4);
    }
    if '\n' !in s && MatchesYml(s) {
      var i :| YmlMatchAt(s, i);
      assert i + 4 == |s|;
    }
  }

  /** Because `$` also matches before a newline, a multi-line argument can match without ending in ".yml". */
  lemma MatchesYmlBeforeNewline()
    ensures MatchesYml("a.yml\nb") && !EndsWithYml("a.yml\nb")
  {
    MatchesYmlIffMatchAt("a.yml\nb");
    assert "a.yml\nb"[1..5] == ".yml";
    assert YmlMatchAt("a.yml\nb", 1);
  }

  // ---------------------------------------------------------------------
  // `s.split(',')`
  // ---------------------------------------------------------------------

  /** Every comma-separated field, empty ones included: "a,,b," gives ["a", "", "b", ""]. */
  function Fields(s: string): (r: seq<string>)
    ensures |r| >= 1
    ensures forall i :: 0 <= i < |r| ==> ',' !in r[i]
  {
    if |s| == 0 then [""]
    else
      var rest := Fields(s[1..]);
      if s[0] == ',' then [""] + rest
      else [[s[0]] + rest[0]] + rest[1..]
  }

  /** `fields.join(',')` */
  function Join(fields: seq<string>): string {
    if |fields| == 0 then ""
    else if |fields| == 1 then fields[0]
    else fields[0] + "," + Join(fields[1..])
  }

  /** Ruby's split without a limit removes trailing empty fields. */
  function DropTrailingEmpty(fields: seq<string>): (r: seq<string>)
    ensures r <= fields
    ensures |r| == 0 || r[|r| - 1] != ""
    ensures forall i :: |r| <= i < |fields| ==> fields[i] == ""
  {
    if |fields| == 0 then []
    else if fields[|fields| - 1] == "" then DropTrailingEmpty(fields[..|fields| - 1])
    else fields
  }

  /** `s.split(',')`: comma-free fields, with trailing empty ones removed. */
  function Split(s: string): (r: seq<string>)
    ensures forall i :: 0 <= i < |r| ==> ',' !in r[i]
    ensures |r| == 0 || r[|r| - 1] != ""
  {
    DropTrailingEmpty(Fields(s))
  }

  /** A run of `n` commas. */
  function Commas(n: nat): (r: string)
    ensures |r| == n
    ensures forall i :: 0 <= i < n ==> r[i] == ','
  {
    if n == 0 then "" else Commas(n - 1) + ","
  }

  /** Appending an empty field to a non-empty list appends one comma to the join. */
  lemma {:induction false} JoinSnocEmpty(fields: seq<string>)
    requires |fields| >= 1
    ensures Join(fields + [""]) == Join(fields) + ","
    decreases |fields|
  {
    if |fields| == 1 {
      assert (fields + [""])[1..] == [""];
    } else {
      JoinSnocEmpty(fields[1..]);
      assert (fields + [""])[1..] == fields[1..] + [""];
    }
  }

  /** Dropping trailing empty fields removes only trailing commas from the join. */
  lemma {:induction false} DropTrailingEmptyJoin(fields: seq<string>)
    ensures exists k: nat :: Join(fields) == Join(DropTrailingEmpty(fields)) + Commas(k)
    decreases |fields|
  {
    if |fields| == 0 {
      assert Join(fields) == Join(DropTrailingEmpty(fields)) + Commas(0);
    } else if fields[|fields| - 1] == "" {
      var init := fields[..|fields| - 1];
      assert fields == init + [""];
      DropTrailingEmptyJoin(init);
      var k: nat :| Join(init) == Join(DropTrailingEmpty(init)) + Commas(k);
      if |init| == 0 {
        assert Join(fields) == Join(DropTrailingEmpty(fields)) + Commas(0);
      } else {
        JoinSnocEmpty(init);
        assert Join(fields) == Join(DropTrailingEmpty(init)) + Commas(k) + ",";
        assert Join(fields) == Join(DropTrailingEmpty(fields)) + Commas(k + 1);
      }
    } else {
      assert Join(fields) == Join(DropTrailingEmpty(fields)) + Commas(0);
    }
  }

  /**
   * `split(',')` loses nothing but trailing commas: joining its fields
   * back gives the original string minus a (possibly empty) run of commas.
   */
  lemma SplitLosesOnlyTrailingCommas(s: string)
    ensures exists k: nat :: s == Join(Split(s)) + Commas(k)
  {
    JoinFields(s);
    DropTrailingEmptyJoin(Fields(s));
  }

  /** Joining the fields back with commas gives the original string. */
  lemma {:induction false} JoinFields(s: string)
    ensures Join(Fields(s)) == s
    decreases |s|
  {
    if |s| > 0 {
      var rest := Fields(s[1..]);
      JoinFields(s[1..]);
      if s[0] == ',' {
        assert Fields(s) == [""] + rest;
        assert ([""] + rest)[1..] == rest;
        assert Join(Fields(s)) == "" + "," + Join(rest);
        assert s == [s[0]] + s[1..];
      } else if |rest| == 1 {
        assert Join(Fields(s)) == [s[0]] + rest[0];
        assert s == [s[0]] + s[1..];
      } else {
        var fs := [[s[0]] + rest[0]] + rest[1..];
        assert fs[1..] == rest[1..];
        assert Join(fs) == ([s[0]] + rest[0]) + "," + Join(rest[1..]);
        assert Join(rest) == rest[0] + "," + Join(rest[1..]);
        assert s == [s[0]] + s[1..];
      }
    }
  }

  /** A string without commas is a single field. */
  lemma {:induction false} FieldsOfOne(a: string)
    requires ',' !in a
    ensures Fields(a) == [a]
    decreases |a|
  {
    if |a| > 0 {
      assert forall j :: 0 <= j < |a[1..]| ==> a[1..][j] == a[j + 1];
      FieldsOfOne(a[1..]);
      assert [a[0]] + a[1..] == a;
    }
  }

  /** A comma-free prefix followed by a comma is split off as the first field. */
  lemma {:induction false} FieldsCons(a: string, b: string)
    requires ',' !in a
    ensures Fields(a + "," + b) == [a] + Fields(b)
    decreases |a|
  {
    var s := a + "," + b;
    if |a| == 0 {
      assert s == "," + b;
      assert s[1..] == b;
    } else {
      assert s[1..] == a[1..] + "," + b;
      assert forall j :: 0 <= j < |a[1..]| ==> a[1..][j] == a[j + 1];
      FieldsCons(a[1..], b);
      assert [a[0]] + a[1..] == a;
    }
  }

  /** Splitting a join of comma-free fields returns those fields. */
  lemma {:induction false} FieldsJoin(fields: seq<string>)
    requires |fields| >= 1
    requires forall i :: 0 <= i < |fields| ==> ',' !in fields[i]
    ensures Fields(Join(fields)) == fields
    decreases |fields|
  {
    if |fields| == 1 {
      FieldsOfOne(fields[0]);
    } else {
      FieldsJoin(fields[1..]);
      FieldsCons(fields[0], Join(fields[1..]));
      assert [fields[0]] + fields[1..] == fields;
    }
  }

  /**
   * `fields.join(',').split(',') == fields` whenever no field holds a comma
   * and the last field is not empty (the empty list joins to "" and splits back to []).
   */
  lemma {:induction false} SplitJoin(fields: seq<string>)
    requires forall i :: 0 <= i < |fields| ==> ',' !in fields[i]
    requires |fields| == 0 || fields[|fields| - 1] != ""
    ensures Split(Join(fields)) == fields
  {
    if |fields| > 0 {
      FieldsJoin(fields);
    }
  }
}

=== FILE: values.dfy ===
/** Parsed YAML documents and the Ruby exceptions the scripts can raise. */
module Values {

  /** A node of a document as `YAML.load` returns it. Keys are strings. */
  datatype Value =
    | Null
    | Bool(b: bool)
    | Int(i: int)
    | Str(s: string)
    | List(items: seq<Value>)
    | Map(entries: map<string, Value>)

  /** `{}` */
  const EmptyMap: Value := Map(map[])

  /**
   * The filesystem as the scripts see it: the parsed document of every file
   * that exists. `File.file?(p)` is `p in files`; loading `p` yields `files[p]`.
   */
  type Files = map<string, Value>

  /** The exceptions raised by the modelled code paths. */
  datatype Error =
      /** `raise "..."`: a RuntimeError carrying its message. */
    | RuntimeError(message: string)
      /** A method sent to a receiver that does not have it (typically nil). */
    | NoMethodError(name: string)
      /** An argument of the wrong type, e.g. `Hash#merge` given a non-hash or `File.read(nil)`. */
    | TypeError
      /** `Errno::ENOENT` from reading a file that does not exist. */
    | FileNotFound(path: string)
}

=== FILE: wrappers.dfy ===
/** Option and Result types used for Ruby's nil and for raised exceptions. */
module Wrappers {

  /** Ruby's nil (`None`) or a present value. */
  datatype Option<+T> = None | Some(value: T) {

    /** The value, or `default` when nil. */
    function GetOr(default: T): T {
      match this
      case Some(v) => v
      case None => default
    }
  }

  /** A computation that either returns a value or raises. */
  datatype Result<+T, +E> = Ok(value: T) | Err(error: E) {

    predicate IsFailure() {
      Err?
    }

    function PropagateFailure<U>(): Result<U, E>
      requires Err?
    {
      Err(error)
    }

    function Extract(): T
      requires Ok?
    {
      value
    }
  }
}

=== FILE: ya_script.dfy ===
/**
 * The top level of ya.rb: when some argument names a `.yml` task file the
 * task is processed first; then, independently, `--help`, `--man` or
 * `--example` prints its text. An exception raised while processing ends
 * the script before the second part runs.
 */
module YaScript {
  import opened Wrappers
  import opened Values
  import opened Text
  import opened Cli
  import TestIt

  /** The name the script lists its examples under. */
  const Program: string := "yarb.rb"

  /** What one run did: the processed task, if any, and the lines the selected mode printed. */
  datatype Outcome = Outcome(report: Option<Report>, lines: seq<string>)

  /**
   * Processing `path`: on a dry run the task document, the configuration
   * and the merged data are reported; otherwise the merged data is what
   * the request is built from.
   */
  function ProcessTask(argv: seq<string>, home: string, files: Files): (r: Result<Report, Error>)
    ensures r.Ok? <==> TestIt.Data(argv, home, files).Ok?
    ensures r.Err? ==> r.error == TestIt.Data(argv, home, files).error
    ensures r.Ok? ==> r.value.data == TestIt.Data(argv, home, files).value
    ensures r.Ok? ==> (r.value.DryRun? <==> ReadSwitches(argv).dryRun)
    ensures r.Ok? && r.value.DryRun? ==>
              && TestIt.Path(argv).Some? && TestIt.Path(argv).value in files
              && r.value.task == files[TestIt.Path(argv).value]
              && TestIt.Config(argv, home, files) == Ok(r.value.defaults)
  {
    var data :- TestIt.Data(argv, home, files);
    if ReadSwitches(argv).dryRun then
      Ok(DryRun(files[TestIt.Path(argv).value], TestIt.Config(argv, home, files).value, data))
    else
      Ok(Request(data))
  }

  /**
   * One run of the script. Task processing happens exactly when some
   * argument matches `/\.yml$/`; the printed mode is chosen from the whole
   * argument list regardless of it.
   */
  function Run(argv: seq<string>, home: string, files: Files, texts: Texts): (r: Result<Outcome, Error>)
    requires HasKeys(texts.examples, ExampleKeys)
    ensures (forall i :: 0 <= i < |argv| ==> !MatchesYml(argv[i])) ==>
              r == Ok(Outcome(None, ModeOutput(SelectMode(argv), argv, Program, texts)))
    ensures r.Err? <==>
              && (exists i :: 0 <= i < |argv| && MatchesYml(argv[i]))
              && TestIt.Data(argv, home, files).Err?
    ensures r.Err? ==> TestIt.Data(argv, home, files) == Err(r.error)
    ensures r.Ok? ==> r.value.lines == ModeOutput(SelectMode(argv), argv, Program, texts)
    ensures r.Ok? ==> (r.value.report.Some? <==> exists i :: 0 <= i < |argv| && MatchesYml(argv[i]))
    ensures r.Ok? && r.value.report.Some? ==>
              && TestIt.Data(argv, home, files) == Ok(r.value.report.value.data)
              && (r.value.report.value.DryRun? <==> "--dry-run" in argv || "-d" in argv)
  {
    var report :-
      if TestIt.Path(argv).Some? then
        var processed :- ProcessTask(argv, home, files);
        Ok(Some(processed))
      else
        Ok(None);
    Ok(Outcome(report, ModeOutput(SelectMode(argv), argv, Program, texts)))
  }

  /** `ya.rb --example` lists the three examples under the script's name. */
  lemma ExampleListsKeys(texts: Texts)
    requires HasKeys(texts.examples, ExampleKeys)
    ensures ModeOutput(SelectMode(["--example"]), ["--example"], Program, texts) ==
              [Program + " example " + "simple", Program + " example " + "config", Program + " example " + "complex"]
  {
    assert SelectMode(["--example"]) == Example;
    assert ExampleOutput(["--example"], Program, texts.examples) == Listing(Program, texts.examples);
    var lines := Listing(Program, texts.examples);
    assert |lines| == 3;
  }
}

=== FILE: yarb.dfy ===
/**
 * yarb.rb: the `Yarb` class stores the first argument as the command name
 * in an auto-vivifying hash and `execute` answers "example" with the
 * installation instruction and everything else with the help text.
 */
module Yarb {
  import opened Values
  import opened Text

  /**
   * `Hash.new { |h, k| h[k] = {} }`: a hash whose reads of a missing key
   * store and return a fresh empty hash.
   */
  datatype AutoHash = AutoHash(entries: map<string, Value>)

  /** `h[k]`: the value read and the hash as it stands afterwards. */
  function Fetch(h: AutoHash, k: string): (r: (Value, AutoHash))
    ensures r.1.entries.Keys == h.entries.Keys + {k}
    ensures k in r.1.entries && r.0 == r.1.entries[k]
    ensures forall j :: j in h.entries ==> r.1.entries[j] == h.entries[j]
    ensures k !in h.entries ==> r.0 == EmptyMap
  {
    if k in h.entries then (h.entries[k], h) else (EmptyMap, AutoHash(h.entries[k := EmptyMap]))
  }

  /** Reading a key a second time finds what the first read left and changes nothing more. */
  lemma FetchTwice(h: AutoHash, k: string)
    ensures var (v, h') := Fetch(h, k); Fetch(h', k) == (v, h')
  {
  }

  /** An instance: just its data hash. */
  datatype Yarb = Yarb(data: AutoHash)

  /** `arguments.first`: nil for an empty list. */
  function First(arguments: seq<string>): Value {
    if |arguments| == 0 then Null else Str(arguments[0])
  }

  /**
   * `initialize`: `@data['command']['name'] = arguments.first`. Reading
   * 'command' creates its empty hash, into which 'name' is stored.
   */
  function New(arguments: seq<string>): (y: Yarb)
    ensures y.data.entries == map["command" := Map(map["name" := First(arguments)])]
  {
    var (command, data) := Fetch(AutoHash(map[]), "command");
    Yarb(AutoHash(data.entries["command" := Map(command.entries["name" := First(arguments)])]))
  }

  /** The class keeps 'command', when present, a hash. */
  predicate Valid(y: Yarb) {
    "command" in y.data.entries ==> y.data.entries["command"].Map?
  }

  /** `@data['command']['name']`, with Hash#[] giving nil for a missing 'name'. */
  function CommandName(y: Yarb): (r: Value)
    requires Valid(y)
    ensures "command" !in y.data.entries ==> r == Null
    ensures "command" in y.data.entries && "name" !in y.data.entries["command"].entries ==> r == Null
    ensures "command" in y.data.entries && "name" in y.data.entries["command"].entries ==>
              r == y.data.entries["command"].entries["name"]
  {
    var (command, _) := Fetch(y.data, "command");
    if "name" in command.entries then command.entries["name"] else Null
  }

  const Installation: string := "Installation instruction"

  /** The heredoc returned for every command but "example", with its common indentation removed. */
  const HelpText: string :=
    "Flags\n  " + "--help" + ":   output this message\n\nCommands:\n  " + "example" + ":  command to return a example file\n\n"

  /** `execute` */
  function Execute(y: Yarb): (r: string)
    requires Valid(y)
    ensures r == Installation <==> CommandName(y) == Str("example")
    ensures r != Installation ==> r == HelpText
  {
    if CommandName(y) == Str("example") then Installation else HelpText
  }

  /** A fresh instance answers the installation instruction exactly for a first argument "example", and help otherwise. */
  lemma ExecuteFirstArgument(arguments: seq<string>)
    ensures Valid(New(arguments))
    ensures Execute(New(arguments)) ==
              if |arguments| > 0 && arguments[0] == "example" then Installation else HelpText
  {
    var y := New(arguments);
    assert Fetch(y.data, "command").0 == Map(map["name" := First(arguments)]);
  }

  /** Only the first argument matters: arguments after it never change the answer. */
  lemma ExecuteIgnoresLaterArguments(a: seq<string>, b: seq<string>)
    requires |a| > 0 && |b| > 0 && a[0] == b[0]
    ensures Execute(New(a)) == Execute(New(b))
  {
    ExecuteFirstArgument(a);
    ExecuteFirstArgument(b);
  }

  /** The help text documents the `--help` flag. */
  lemma HelpTextListsFlag()
    ensures Contains(HelpText, "--help")
  {
    var a := "Flags\n  ";
    var rest := ":   output this message\n\nCommands:\n  " + "example" + ":  command to return a example file\n\n";
    assert HelpText == a + "--help" + rest;
    assert HelpText[|a|..|a| + 6] == "--help";
    assert OccursAt(HelpText, "--help", |a|);
  }

  /** The help text documents the `example` command, and is not the installation instruction. */
  lemma HelpTextListsCommand()
    ensures Contains(HelpText, "example")
    ensures HelpText != Installation
  {
    var a := "Flags\n  " + "--help" + ":   output this message\n\nCommands:\n  ";
    var c := ":  command to return a example file\n\n";
    assert HelpText == a + "example" + c;
    assert HelpText[|a|..|a| + 7] == "example";
    assert OccursAt(HelpText, "example", |a|);
    assert |HelpText| != |Installation|;
  }
}
